=== FILE: README.md ===
# go-rs232 line configuration, in Dafny

This project models the pure logic inside the `rs232` Go package, a thin cgo
wrapper that opens a serial device and configures it through the POSIX termios
interface. It also models the `parseMode` helper of the `serialcat` utility.
Four pieces are covered:

- **Baud-rate translation** (`baud.dfy`, module `Baud`). `init` fills the
  process-wide table `baudConversionMap` from integer rates to the termios speed
  constants `B0` … `B230400`. `baudConversion` is a plain Go map lookup. The
  constants are the named datatype `SpeedCode`. Their numeric `speed_t` values
  come from platform headers, so they are an encoding parameter
  `enc: SpeedCode -> nat`. A Go map lookup of a missing key gives the zero value
  of `speed_t` and no "found" flag. The model keeps that behaviour. Where `B0`
  is 0, as on Linux, an unsupported rate looks exactly like rate 0, the hang-up
  request (`UnsupportedLooksLikeHangUp`, `LinuxConflatesUnsupportedWithHangUp`).
- **Line configuration** (`line_config.dfy`, module `LineConfig`). This is the
  middle of `OpenPort`, between `tcgetattr` and `tcsetattr`:
  - both speeds are set from one converted rate;
  - the `switch serconf` framing assignments run next;
  - then CLOCAL|CREAD is set and CRTSCTS is cleared.

  `c_cflag` is a `bv32`. Each compound assignment (`|=` or `&^=`) is an `Edit`,
  and the step runs a list of edits in source order. The flag masks form a
  `Flags` record with no fixed values. `Assumed` states what the proofs need of
  them: the single-bit flags are pairwise disjoint, CS7 and CS8 lie inside
  CSIZE, and CSIZE is disjoint from the other flags. The masks of Linux's
  asm-generic termbits header satisfy these assumptions (`LinuxFlagsAssumed`).
  `SerConf` is a plain Go `int`. The `switch` has no `default` case, so any
  other value skips the framing assignments, and the model keeps that.
- **`OpenPort` as a whole** (`open_port.dfy`, module `Rs232`). Each OS call's
  success is an input, as is the structure that `tcgetattr` fills in. The
  result is one of three outcomes: a port, the `os.OpenFile` error, or one of
  the `panic`s. Every panic happens after the device was opened, and nothing
  closes it. The port that comes back is blocking. The device was opened with
  O_NDELAY, and the doc comment on `OpenPort` says "non-blocking", but the last
  step calls `SetNonblock(fd, false)`. The model follows the code.
- **Mode names** (`serialcat.dfy`, module `SerialCat`). `ParseMode` returns
  `Option<SerConf>`, and `None` stands for the `log.Fatalf` branch. Its partner
  is `ModeNames`, the three names in the order the usage text lists them, which
  is also the `iota` order of the constants.

A stricter design for this package would report an unsupported rate as a
distinct error, close the descriptor on every failure during configuration, and
set read-timing defaults (VMIN/VTIME). The code does none of these. The model
follows the code.

Two general facts about runs of `|=` / `&^=` assignments carry most of the
proofs:
- `ApplyEditsMasks`: any such run keeps each bit from its input or forces it
  to a constant;
- `ApplyEditsAppend`: running two runs one after the other equals running
  their concatenation.

From `ApplyEditsMasks` follows idempotence for any mask values. The
field-by-field facts are proved about a closed form, `Written`, which
`ConfigureWritten` connects to the edit list. `Written` is a proof device
that the solver handles more cheaply, not a second model of the `switch`.

## Model

| member | source | states |
|---|---|---|
| Baud.TableKeys | rs232.go:23-47 | The table `init` builds has exactly the nineteen supported rates as keys |
| Baud.CommentedOutRatesAbsent | rs232.go:40-44 | The commented-out rates 7200, 14400, 28800 and 76800 are not in the table |
| Baud.TableIsNominal | rs232.go:24-46 | The table is a bijection between the supported rates and the named constants: each rate maps to the constant named after it, and every constant appears under its own rate |
| Baud.BaudConversion | rs232.go:49-51 | A supported rate converts to the value of the constant named after it; any other rate converts to the zero value of `speed_t`, with no error |
| Baud.UnsupportedLooksLikeHangUp | rs232.go:49-51 | If `B0` is 0 and the constants are distinct, a rate converts to the same value as rate 0 exactly when it is 0 or unsupported |
| Baud.SupportedRatesDistinct | rs232.go:24-46 | With distinct constants, two supported rates convert to the same value only if they are the same rate |
| Baud.LinuxConflatesUnsupportedWithHangUp | rs232.go:16-51 | With Linux's constant values, 7200 converts to the same value as rate 0, namely `B0` |
| LineConfig.Configure | rs232.go:83-88 | Input speed and output speed are both set to `baudConversion(baudRate)` |
| LineConfig.ConfigureFraming | rs232.go:89-113 | 8N1 clears PARENB and CSTOPB, makes the CSIZE field CS8 and leaves PARODD as it was. 7E1 sets PARENB, clears PARODD and CSTOPB and makes CSIZE CS7. 7O1 sets PARENB and PARODD, clears CSTOPB and makes CSIZE CS7. Any other value leaves all four fields unchanged |
| LineConfig.ConfigureLine | rs232.go:114-117 | For every `serconf`, CLOCAL and CREAD end up set and CRTSCTS ends up clear |
| LineConfig.ConfigureOnlyTouches | rs232.go:89-117 | The framing and line assignments leave every `c_cflag` bit outside PARENB, PARODD, CSTOPB, CSIZE, CLOCAL, CREAD and CRTSCTS unchanged; the speed calls are modelled as writing only the two speed fields |
| LineConfig.ConfigureIdempotent | rs232.go:83-117 | Configuring the result again with the same rate and mode changes nothing, whatever the mask values |
| LineConfig.ApplyEditsMasks | rs232.go:89-117 | Any sequence of set and clear assignments (OR-assign and AND-NOT-assign) keeps each bit from the input or forces it to a fixed value |
| LineConfig.ApplyEditsIdempotent | rs232.go:89-117 | Repeating a sequence of set and clear assignments (OR-assign and AND-NOT-assign) gives the same value as running it once |
| LineConfig.ApplyEditsAppend | rs232.go:89-117 | Running the `switch` assignments and then the line assignments equals running them as one sequence |
| Rs232.OpenPort | rs232.go:66-128 | The `os.OpenFile` error is returned exactly when the open fails. Each panic happens after a successful open and is caused by the first failing call. A port is returned exactly when every call succeeds; it is blocking and has both speeds from the converted rate |
| Rs232.OpenedPortConfigured | rs232.go:78-127 | A returned port is blocking and carries the configured speeds, the framing of `serconf`, and CLOCAL and CREAD on with CRTSCTS off. Every other control bit that the framing and line assignments do not name is as `tcgetattr` reported it; the speed calls are modelled as writing only the two speed fields |
| Rs232.OpenedWithUnsupportedRate | rs232.go:83-88 | For a rate outside the table, `OpenPort` still succeeds and commits the zero speed value in both directions, which equals `B0` wherever `B0` is 0 |
| SerialCat.ParseMode | serialcat/serialcat.go:20-32 | An accepted string is the listed name at the position of the returned constant; a rejected string is none of the listed names |
| SerialCat.ParseModeAcceptsNames | serialcat/serialcat.go:21-27 | Each listed mode name is accepted and gives the constant at its position |
| SerialCat.ParseModeNamed | serialcat/serialcat.go:22-27 | "8N1", "7E1" and "7O1" give S_8N1, S_7E1 and S_7O1 |
| SerialCat.ParseModeRejects | serialcat/serialcat.go:28-29 | The empty string and the lower-case spellings "8n1", "7e1" and "7o1" take the fatal branch |
| SerialCat.ParseModeInjective | serialcat/serialcat.go:20-31 | Two accepted strings that give the same constant are the same string |
| SerialCat.DefaultsConsistent | serialcat/serialcat.go:35-36 | The default mode "8N1" is accepted and gives S_8N1, and the default rate 57600 is a key of the baud table |

## Left out

- Rs232.OpenedPortConfigured: the speed calls `cfsetispeed` and `cfsetospeed` are modelled as writing only the two speed fields. Where the platform encodes the speed in `c_cflag` (Linux: the CBAUD and CBAUDEX bits, which hold exactly the `B*` values of `LinuxSpeed`), those bits change too, so "every other control bit as `tcgetattr` reported it" holds only on a platform with separate speed fields. How a C library stores the speed is outside the Go code, and the speed values are already abstract.
- LineConfig.ConfigureOnlyTouches: for the same reason, it covers only the framing and line assignments. On a platform that stores the speed in `c_cflag`, the speed calls also rewrite the CBAUD and CBAUDEX bits.
- Device I/O: `os.OpenFile` and the cgo calls `tcgetattr`, `cfsetispeed`, `cfsetospeed`, `tcsetattr` and `syscall.SetNonblock` are foreign OS calls. Only whether each succeeds, and the structure `tcgetattr` fills in, are modelled, as inputs.
- The numeric values of the `B*` constants and of PARENB, CSIZE, CS8 and the other masks come from platform headers. They stay abstract parameters under the stated disjointness assumptions. Linux's values are given only as a witness that the assumptions can be met.
- Termios fields other than the two speeds and `c_cflag` (`c_iflag`, `c_oflag`, `c_lflag`, `c_cc`): the Go code assigns none of them, and the model carries them only implicitly, as what `tcgetattr` reported. glibc's `cfsetispeed` marks a zero input speed in bit 31 of `c_iflag`, and its `tcsetattr` clears that bit before the ioctl, so the device receives these fields as `tcgetattr` reported them.
- The width of Go's `int` for rates and `SerConf`: it is modelled as an unbounded `int`, and no branch depends on the width.
- `Read`, `Write` and `Close` (rs232.go:131-143): one-line pass-throughs to `*os.File` with no logic. There is no closed-handle tracking to model.
- Read-timing (VMIN/VTIME) configuration: the code has none.
- serialcat `main` (flag parsing, usage text, `os.Exit(64)` on an empty path, copying to stdout) and `example/rs232_example.go`: command-line and I/O plumbing.

=== FILE: baud.dfy ===
/** The baud-rate table of the rs232 package: a process-wide map from integer
    rates to the termios speed constants, and the lookup `baudConversion`. */
module Baud {

  /** The named termios speed constants the table refers to (`B0` .. `B230400`).
      Their numeric values come from platform headers and are kept abstract. */
  datatype SpeedCode =
    | B0 | B50 | B75 | B110 | B134 | B150 | B200 | B300 | B600
    | B1200 | B1800 | B2400 | B4800 | B9600 | B19200 | B38400
    | B57600 | B115200 | B230400

  /** How one platform encodes the named constants as values of the C type
      `speed_t` (an unsigned integer). */
  type SpeedEncoding = SpeedCode -> nat

  /** The numeric value a Go map lookup yields for a missing key: the zero
      value of `speed_t`. */
  const ZeroSpeed: nat := 0

  /** The table as `init` fills it: one write per supported rate, in source
      order. The rates 7200, 14400, 28800 and 76800 are commented out there
      and so are absent here. */
  const Table: map<int, SpeedCode> := map[
    0 := B0, 50 := B50, 75 := B75, 110 := B110, 134 := B134,
    150 := B150, 200 := B200, 300 := B300, 600 := B600,
    1200 := B1200, 1800 := B1800, 2400 := B2400, 4800 := B4800,
    9600 := B9600, 19200 := B19200, 38400 := B38400,
    57600 := B57600, 115200 := B115200, 230400 := B230400]

  /** The nineteen supported rates, listed independently of the table. */
  const SupportedRates: set<int> := {
    0, 50, 75, 110, 134, 150, 200, 300, 600, 1200, 1800, 2400, 4800,
    9600, 19200, 38400, 57600, 115200, 230400}

  /** The rate, in baud, that each named constant stands for. */
  function NominalRate(c: SpeedCode): int
  {
    match c
    case B0 => 0
    case B50 => 50
    case B75 => 75
    case B110 => 110
    case B134 => 134
    case B150 => 150
    case B200 => 200
    case B300 => 300
    case B600 => 600
    case B1200 => 1200
    case B1800 => 1800
    case B2400 => 2400
    case B4800 => 4800
    case B9600 => 9600
    case B19200 => 19200
    case B38400 => 38400
    case B57600 => 57600
    case B115200 => 115200
    case B230400 => 230400
  }

  /** No two platform speed constants share a numeric value. */
  ghost predicate Injective(enc: SpeedEncoding)
  {
    forall a, b :: enc(a) == enc(b) ==> a == b
  }

  /** Every key of the table is a supported rate. */
  lemma TableKeyIsSupported(r: int)
    requires r in Table
    ensures r in SupportedRates
  {
  }

  /** Every supported rate is a key of the table. */
  lemma SupportedRateIsKey(r: int)
    requires r in SupportedRates
    ensures r in Table
  {
  }

  /** The rates whose writes are commented out in `init` are not in the table. */
  lemma CommentedOutRatesAbsent()
    ensures 7200 !in Table && 14400 !in Table && 28800 !in Table && 76800 !in Table
  {
  }

  /** The table holds exactly the supported rates. */
  lemma TableKeys()
    ensures Table.Keys == SupportedRates
  {
    forall r | r in Table
      ensures r in SupportedRates
    {
      TableKeyIsSupported(r);
    }
    forall r | r in SupportedRates
      ensures r in Table
    {
      SupportedRateIsKey(r);
    }
  }

  /** Every named constant sits in the table under its own rate. */
  lemma TableCoversCodes(c: SpeedCode)
    ensures NominalRate(c) in Table && Table[NominalRate(c)] == c
  {
    match c
    case _ =>
  }

  /** Every table entry maps a rate to the constant named after it. */
  lemma TableEntryNominal(r: int)
    requires r in Table
    ensures NominalRate(Table[r]) == r
  {
    TableKeys();
    assert r in SupportedRates;
  }

  /** Together: the table is a bijection between `SupportedRates` and the
      named constants. */
  lemma TableIsNominal()
    ensures Table.Keys == SupportedRates
    ensures forall r :: r in Table ==> NominalRate(Table[r]) == r
    ensures forall c :: NominalRate(c) in Table && Table[NominalRate(c)] == c
  {
    TableKeys();
    forall r | r in Table
      ensures NominalRate(Table[r]) == r
    {
      TableEntryNominal(r);
    }
    forall c
      ensures NominalRate(c) in Table && Table[NominalRate(c)] == c
    {
      TableCoversCodes(c);
    }
  }

  /** `baudConversion`: a plain map lookup. A rate absent from the table
      produces the zero value of `speed_t` and no "found" flag. */
  function BaudConversion(enc: SpeedEncoding, rate: int): (s: nat)
    ensures forall c :: NominalRate(c) == rate ==> s == enc(c)
    ensures rate !in SupportedRates ==> s == ZeroSpeed
  {
    TableIsNominal();
    if rate in Table then enc(Table[rate]) else ZeroSpeed
  }

  /** Where the hang-up constant `B0` is the number 0, every unsupported rate
      converts to exactly what rate 0 converts to: the caller cannot tell
      "unsupported" from "hang up". With injective constants, these are the
      only rates that collide with rate 0. */
  lemma UnsupportedLooksLikeHangUp(enc: SpeedEncoding, rate: int)
    requires enc(B0) == ZeroSpeed
    requires Injective(enc)
    ensures BaudConversion(enc, rate) == BaudConversion(enc, 0)
        <==> rate == 0 || rate !in SupportedRates
  {
    if rate in SupportedRates && rate != 0 {
      TableIsNominal();
      var c := Table[rate];
      assert NominalRate(c) == rate;
      assert c != B0;
    }
  }

  /** With injective constants, distinct supported rates convert to distinct
      speed values, and repeated lookups agree. */
  lemma SupportedRatesDistinct(enc: SpeedEncoding, r1: int, r2: int)
    requires Injective(enc)
    requires r1 in SupportedRates && r2 in SupportedRates
    ensures BaudConversion(enc, r1) == BaudConversion(enc, r2) <==> r1 == r2
  {
    TableIsNominal();
    if BaudConversion(enc, r1) == BaudConversion(enc, r2) {
      assert enc(Table[r1]) == enc(Table[r2]);
      assert NominalRate(Table[r1]) == r1;
    }
  }

  /** The values of the constants in Linux's asm-generic termbits header. */
  function LinuxSpeed(c: SpeedCode): nat
  {
    match c
    case B0 => 0
    case B50 => 1
    case B75 => 2
    case B110 => 3
    case B134 => 4
    case B150 => 5
    case B200 => 6
    case B300 => 7
    case B600 => 8
    case B1200 => 9
    case B1800 => 10
    case B2400 => 11
    case B4800 => 12
    case B9600 => 13
    case B19200 => 14
    case B38400 => 15
    case B57600 => 4097
    case B115200 => 4098
    case B230400 => 4099
  }

  /** Linux meets the assumptions above, so on Linux an unsupported rate such
      as 7200 configures the line for hang-up. */
  lemma LinuxConflatesUnsupportedWithHangUp()
    ensures Injective(LinuxSpeed) && LinuxSpeed(B0) == ZeroSpeed
    ensures BaudConversion(LinuxSpeed, 7200) == BaudConversion(LinuxSpeed, 0) == LinuxSpeed(B0)
  {
    forall a, b | LinuxSpeed(a) == LinuxSpeed(b)
      ensures a == b
    {
      assert NominalRate(a) == NominalRate(b);
    }
  }
}

=== FILE: line_config.dfy ===
/** The line-configuration step of `OpenPort`: both speeds from one converted
    rate, the per-mode framing assignments to `c_cflag`, then local mode and
    receiver on and hardware flow control off. */
module LineConfig {
  import opened Baud

  /** `SerConf` is a plain Go `int`: any integer can be passed, not only the
      three named constants. */
  type SerConf = int

  const S8N1: SerConf := 0
  const S7E1: SerConf := 1
  const S7O1: SerConf := 2

  /** The `c_cflag` masks of the platform's termios header, kept abstract. */
  datatype Flags = Flags(
    parenb: bv32, parodd: bv32, cstopb: bv32, csize: bv32,
    cs7: bv32, cs8: bv32, clocal: bv32, cread: bv32, crtscts: bv32)

  predicate Disjoint(a: bv32, b: bv32)
  {
    a & b == 0
  }

  predicate Within(a: bv32, b: bv32)
  {
    a & !b == 0
  }

  /** What the model assumes of the header: the single-bit flags are pairwise
      disjoint, CS7 and CS8 are values of the CSIZE field, and the CSIZE field
      overlaps none of the other flags. */
  predicate Assumed(f: Flags)
  {
    && Disjoint(f.parenb, f.parodd) && Disjoint(f.parenb, f.cstopb)
    && Disjoint(f.parenb, f.clocal) && Disjoint(f.parenb, f.cread)
    && Disjoint(f.parenb, f.crtscts)
    && Disjoint(f.parodd, f.cstopb) && Disjoint(f.parodd, f.clocal)
    && Disjoint(f.parodd, f.cread) && Disjoint(f.parodd, f.crtscts)
    && Disjoint(f.cstopb, f.clocal) && Disjoint(f.cstopb, f.cread)
    && Disjoint(f.cstopb, f.crtscts)
    && Disjoint(f.clocal, f.cread) && Disjoint(f.clocal, f.crtscts)
    && Disjoint(f.cread, f.crtscts)
    && Within(f.cs7, f.csize) && Within(f.cs8, f.csize)
    && Disjoint(f.csize, f.parenb) && Disjoint(f.csize, f.parodd)
    && Disjoint(f.csize, f.cstopb) && Disjoint(f.csize, f.clocal)
    && Disjoint(f.csize, f.cread) && Disjoint(f.csize, f.crtscts)
  }

  /** The masks of Linux's asm-generic termbits header. */
  const LinuxFlags: Flags := Flags(
    parenb := 0x100, parodd := 0x200, cstopb := 0x40, csize := 0x30,
    cs7 := 0x20, cs8 := 0x30, clocal := 0x800, cread := 0x80,
    crtscts := 0x8000_0000)

  /** Linux's header meets the assumptions. */
  lemma LinuxFlagsAssumed()
    ensures Assumed(LinuxFlags)
  {
  }

  /** The part of the termios structure the configuration step touches. */
  datatype Termios = Termios(ispeed: nat, ospeed: nat, cflag: bv32)

  const NoBits: bv32 := 0
  const AllBits: bv32 := 0xFFFF_FFFF

  /** One compound assignment to `c_cflag`: `|= mask` or `&^= mask`. */
  datatype Edit = Set(mask: bv32) | Clear(mask: bv32)

  function Step(c: bv32, e: Edit): bv32
  {
    match e
    case Set(m) => c | m
    case Clear(m) => c & !m
  }

  /** Runs the assignments in order. */
  function ApplyEdits(c: bv32, es: seq<Edit>): bv32
    decreases |es|
  {
    if es == [] then c else ApplyEdits(Step(c, es[0]), es[1..])
  }

  /** The bits a run of assignments takes from its input ... */
  function Kept(es: seq<Edit>): bv32
    decreases |es|
  {
    if es == [] then AllBits
    else match es[0]
      case Set(_) => Kept(es[1..])
      case Clear(m) => !m & Kept(es[1..])
  }

  /** ... and the bits it turns on whatever the input. */
  function Forced(es: seq<Edit>): bv32
    decreases |es|
  {
    if es == [] then NoBits
    else match es[0]
      case Set(m) => (m & Kept(es[1..])) | Forced(es[1..])
      case Clear(_) => Forced(es[1..])
  }

  /** Any run of set/clear assignments acts on each bit on its own: the bit
      is either kept from the input or forced to a constant. */
  lemma {:induction false} ApplyEditsMasks(c: bv32, es: seq<Edit>)
    ensures ApplyEdits(c, es) == (c & Kept(es)) | Forced(es)
    decreases |es|
  {
    if es == [] {
      BitsNone(c);
    } else {
      ApplyEditsMasks(Step(c, es[0]), es[1..]);
      if es[0].Set? {
        MasksAfterSet(c, es);
      } else {
        MasksAfterClear(c, es);
      }
    }
  }

  /** The inductive step of `ApplyEditsMasks` for a leading `|=`. */
  lemma MasksAfterSet(c: bv32, es: seq<Edit>)
    requires es != [] && es[0].Set?
    requires ApplyEdits(Step(c, es[0]), es[1..]) == (Step(c, es[0]) & Kept(es[1..])) | Forced(es[1..])
    ensures ApplyEdits(c, es) == (c & Kept(es)) | Forced(es)
  {
    UnfoldSet(c, es);
    BitsSet(c, es[0].mask, Kept(es[1..]), Forced(es[1..]));
  }

  /** The inductive step of `ApplyEditsMasks` for a leading `&^=`. */
  lemma MasksAfterClear(c: bv32, es: seq<Edit>)
    requires es != [] && es[0].Clear?
    requires ApplyEdits(Step(c, es[0]), es[1..]) == (Step(c, es[0]) & Kept(es[1..])) | Forced(es[1..])
    ensures ApplyEdits(c, es) == (c & Kept(es)) | Forced(es)
  {
    UnfoldClear(c, es);
    BitsClear(c, es[0].mask, Kept(es[1..]), Forced(es[1..]));
  }

  lemma UnfoldSet(c: bv32, es: seq<Edit>)
    requires es != [] && es[0].Set?
    ensures ApplyEdits(c, es) == ApplyEdits(c | es[0].mask, es[1..])
    ensures Kept(es) == Kept(es[1..])
    ensures Forced(es) == (es[0].mask & Kept(es[1..])) | Forced(es[1..])
  {
  }

  lemma UnfoldClear(c: bv32, es: seq<Edit>)
    requires es != [] && es[0].Clear?
    ensures ApplyEdits(c, es) == ApplyEdits(c & !es[0].mask, es[1..])
    ensures Kept(es) == !es[0].mask & Kept(es[1..])
    ensures Forced(es) == Forced(es[1..])
  {
  }

  lemma BitsNone(c: bv32)
    ensures (c & AllBits) | NoBits == c
  {
  }

  lemma BitsSet(c: bv32, m: bv32, k: bv32, f: bv32)
    ensures ((c | m) & k) | f == (c & k) | ((m & k) | f)
  {
  }

  lemma BitsClear(c: bv32, m: bv32, k: bv32, f: bv32)
    ensures ((c & !m) & k) | f == (c & (!m & k)) | f
  {
  }

  lemma BitsMaskedTwice(c: bv32, k: bv32, f: bv32)
    ensures (((c & k) | f) & k) | f == (c & k) | f
  {
  }

  /** Hence any run of set/clear assignments is idempotent. */
  lemma ApplyEditsIdempotent(c: bv32, es: seq<Edit>)
    ensures ApplyEdits(ApplyEdits(c, es), es) == ApplyEdits(c, es)
  {
    ApplyEditsMasks(c, es);
    ApplyEditsMasks(ApplyEdits(c, es), es);
    BitsMaskedTwice(c, Kept(es), Forced(es));
  }

  /** Running two runs back to back is running their concatenation. */
  lemma {:induction false} ApplyEditsAppend(c: bv32, a: seq<Edit>, b: seq<Edit>)
    ensures ApplyEdits(c, a + b) == ApplyEdits(ApplyEdits(c, a), b)
    decreases |a|
  {
    if a == [] {
      assert a + b == b;
    } else {
      assert (a + b)[1..] == a[1..] + b;
      ApplyEditsAppend(Step(c, a[0]), a[1..], b);
    }
  }

  lemma ApplyEditsCons(c: bv32, es: seq<Edit>)
    requires es != []
    ensures ApplyEdits(c, es) == ApplyEdits(Step(c, es[0]), es[1..])
  {
  }

  lemma ApplyOne(c: bv32, e: Edit)
    ensures ApplyEdits(c, [e]) == Step(c, e)
  {
    ApplyEditsCons(c, [e]);
  }

  lemma ApplyTwo(c: bv32, e1: Edit, e2: Edit)
    ensures ApplyEdits(c, [e1, e2]) == Step(Step(c, e1), e2)
  {
    ApplyEditsCons(c, [e1, e2]);
    assert [e1, e2][1..] == [e2];
    ApplyOne(Step(c, e1), e2);
  }

  lemma ApplyFour(c: bv32, e1: Edit, e2: Edit, e3: Edit, e4: Edit)
    ensures ApplyEdits(c, [e1, e2, e3, e4]) == Step(Step(Step(Step(c, e1), e2), e3), e4)
  {
    assert [e1, e2, e3, e4] == [e1, e2] + [e3, e4];
    ApplyEditsAppend(c, [e1, e2], [e3, e4]);
    ApplyTwo(c, e1, e2);
    ApplyTwo(Step(Step(c, e1), e2), e3, e4);
  }

  lemma ApplyFive(c: bv32, e1: Edit, e2: Edit, e3: Edit, e4: Edit, e5: Edit)
    ensures ApplyEdits(c, [e1, e2, e3, e4, e5]) == Step(Step(Step(Step(Step(c, e1), e2), e3), e4), e5)
  {
    assert [e1, e2, e3, e4, e5] == [e1, e2, e3, e4] + [e5];
    ApplyEditsAppend(c, [e1, e2, e3, e4], [e5]);
    ApplyFour(c, e1, e2, e3, e4);
    ApplyOne(Step(Step(Step(Step(c, e1), e2), e3), e4), e5);
  }

  /** The assignments of the `switch serconf` statement. It has no `default`
      case, so any other value assigns nothing. */
  function FramingEdits(f: Flags, serconf: SerConf): seq<Edit>
  {
    if serconf == S8N1 then
      [Clear(f.parenb), Clear(f.cstopb), Clear(f.csize), Set(f.cs8)]
    else if serconf == S7E1 then
      [Set(f.parenb), Clear(f.parodd), Clear(f.cstopb), Clear(f.csize), Set(f.cs7)]
    else if serconf == S7O1 then
      [Set(f.parenb), Set(f.parodd), Clear(f.cstopb), Clear(f.csize), Set(f.cs7)]
    else
      []
  }

  /** The unconditional assignments after the `switch`. */
  function LineEdits(f: Flags): seq<Edit>
  {
    [Set(f.clocal | f.cread), Clear(f.crtscts)]
  }

  /** Every `c_cflag` field the configuration step names. */
  function Touched(f: Flags): bv32
  {
    f.parenb | f.parodd | f.cstopb | f.csize | f.clocal | f.cread | f.crtscts
  }

  /** The framing fields: parity enable, parity odd, stop bits, size. */
  function FramingBits(f: Flags): bv32
  {
    f.parenb | f.parodd | f.cstopb | f.csize
  }

  /** The in-memory edits `OpenPort` makes between `tcgetattr` and
      `tcsetattr`: both speeds from the one converted rate, then the framing
      and line assignments in source order. */
  function Configure(f: Flags, enc: SpeedEncoding, t: Termios, baudRate: int, serconf: SerConf): (r: Termios)
    ensures r.ispeed == r.ospeed == BaudConversion(enc, baudRate)
  {
    var speed := BaudConversion(enc, baudRate);
    Termios(speed, speed, ApplyEdits(t.cflag, FramingEdits(f, serconf) + LineEdits(f)))
  }

  /** What the framing assignments promise, field by field of `c_cflag`:
      8N1 clears parity enable and the second stop bit and sets the size
      field to CS8, leaving the parity-odd bit as it was; 7E1 and 7O1 enable
      parity, choose even or odd, clear the second stop bit and set the size
      field to CS7; any other value leaves all four fields alone. */
  predicate Framed(f: Flags, before: bv32, after: bv32, serconf: SerConf)
  {
    if serconf == S8N1 then
      && after & f.parenb == 0
      && after & f.cstopb == 0
      && after & f.csize == f.cs8
      && after & f.parodd == before & f.parodd
    else if serconf == S7E1 then
      && after & f.parenb == f.parenb
      && after & f.parodd == 0
      && after & f.cstopb == 0
      && after & f.csize == f.cs7
    else if serconf == S7O1 then
      && after & f.parenb == f.parenb
      && after & f.parodd == f.parodd
      && after & f.cstopb == 0
      && after & f.csize == f.cs7
    else
      after & FramingBits(f) == before & FramingBits(f)
  }

  /** Local mode and the receiver on, hardware flow control off. */
  predicate LineForced(f: Flags, after: bv32)
  {
    && after & f.clocal == f.clocal
    && after & f.cread == f.cread
    && after & f.crtscts == 0
  }

  /** Every bit outside the seven fields the step names keeps its value. */
  predicate OutsideUnchanged(f: Flags, before: bv32, after: bv32)
  {
    after & !Touched(f) == before & !Touched(f)
  }

  /** The framing assignments of one `case`, written out as one expression.
      This and the two functions below are a proof device, not a second model
      of the `switch`: `FramingEdits` and `LineEdits` are the model, and
      `ConfigureWritten` shows that the two forms agree. */
  function FramingWritten(f: Flags, c: bv32, serconf: SerConf): bv32
  {
    if serconf == S8N1 then
      Step(Step(Step(Step(c, Clear(f.parenb)), Clear(f.cstopb)), Clear(f.csize)), Set(f.cs8))
    else if serconf == S7E1 then
      Step(Step(Step(Step(Step(c, Set(f.parenb)), Clear(f.parodd)), Clear(f.cstopb)), Clear(f.csize)), Set(f.cs7))
    else if serconf == S7O1 then
      Step(Step(Step(Step(Step(c, Set(f.parenb)), Set(f.parodd)), Clear(f.cstopb)), Clear(f.csize)), Set(f.cs7))
    else c
  }

  /** The two assignments after the `switch`, written out. */
  function LineWritten(f: Flags, x: bv32): bv32
  {
    Step(Step(x, Set(f.clocal | f.cread)), Clear(f.crtscts))
  }

  /** All `c_cflag` assignments of `Configure` written out as one expression.
      The field-by-field facts below are proved about this form because the
      solver handles a fixed chain of bit operations more cheaply than a fold
      over a list. */
  function Written(f: Flags, c: bv32, serconf: SerConf): bv32
  {
    LineWritten(f, FramingWritten(f, c, serconf))
  }

  lemma FramingEdits8N1(f: Flags, c: bv32)
    ensures ApplyEdits(c, FramingEdits(f, S8N1)) == FramingWritten(f, c, S8N1)
  {
    ApplyFour(c, Clear(f.parenb), Clear(f.cstopb), Clear(f.csize), Set(f.cs8));
  }

  lemma FramingEdits7E1(f: Flags, c: bv32)
    ensures ApplyEdits(c, FramingEdits(f, S7E1)) == FramingWritten(f, c, S7E1)
  {
    ApplyFive(c, Set(f.parenb), Clear(f.parodd), Clear(f.cstopb), Clear(f.csize), Set(f.cs7));
  }

  lemma FramingEdits7O1(f: Flags, c: bv32)
    ensures ApplyEdits(c, FramingEdits(f, S7O1)) == FramingWritten(f, c, S7O1)
  {
    ApplyFive(c, Set(f.parenb), Set(f.parodd), Clear(f.cstopb), Clear(f.csize), Set(f.cs7));
  }

  lemma LineEditsWritten(f: Flags, c: bv32)
    ensures ApplyEdits(c, LineEdits(f)) == LineWritten(f, c)
  {
    ApplyTwo(c, Set(f.clocal | f.cread), Clear(f.crtscts));
  }

  lemma FramingEditsOther(f: Flags, c: bv32, serconf: SerConf)
    requires serconf != S8N1 && serconf != S7E1 && serconf != S7O1
    ensures ApplyEdits(c, FramingEdits(f, serconf)) == FramingWritten(f, c, serconf)
  {
    assert FramingEdits(f, serconf) == [];
  }

  lemma FramingEditsWritten(f: Flags, c: bv32, serconf: SerConf)
    ensures ApplyEdits(c, FramingEdits(f, serconf)) == FramingWritten(f, c, serconf)
  {
    if serconf == S8N1 {
      FramingEdits8N1(f, c);
    } else if serconf == S7E1 {
      FramingEdits7E1(f, c);
    } else if serconf == S7O1 {
      FramingEdits7O1(f, c);
    } else {
      FramingEditsOther(f, c, serconf);
    }
  }

  lemma EditsWritten(f: Flags, c: bv32, serconf: SerConf)
    ensures ApplyEdits(c, FramingEdits(f, serconf) + LineEdits(f)) == Written(f, c, serconf)
  {
    ApplyEditsAppend(c, FramingEdits(f, serconf), LineEdits(f));
    FramingEditsWritten(f, c, serconf);
    LineEditsWritten(f, FramingWritten(f, c, serconf));
  }

  lemma ConfigureWritten(f: Flags, enc: SpeedEncoding, t: Termios, baudRate: int, serconf: SerConf)
    ensures Configure(f, enc, t, baudRate, serconf).cflag == Written(f, t.cflag, serconf)
  {
    EditsWritten(f, t.cflag, serconf);
  }

  /* Field-by-field facts about `Written`, one bit-vector query each: with
     several facts about the same expression in one lemma, the solver runs
     out of resource. The wrapper lemmas further down combine them. */

  /* The two assignments after the `switch`. */

  lemma LineSetsClocal(f: Flags, x: bv32)
    requires Assumed(f)
    ensures LineWritten(f, x) & f.clocal == f.clocal
  {
  }

  lemma LineSetsCread(f: Flags, x: bv32)
    requires Assumed(f)
    ensures LineWritten(f, x) & f.cread == f.cread
  {
  }

  lemma LineClearsCrtscts(f: Flags, x: bv32)
    ensures LineWritten(f, x) & f.crtscts == 0
  {
  }

  /* `case S_8N1`. */

  lemma Written8N1ClearsParenb(f: Flags, c: bv32)
    requires Assumed(f)
    ensures Written(f, c, S8N1) & f.parenb == 0
  {
  }

  lemma Written8N1ClearsCstopb(f: Flags, c: bv32)
    requires Assumed(f)
    ensures Written(f, c, S8N1) & f.cstopb == 0
  {
  }

  lemma Written8N1SizeCs8(f: Flags, c: bv32)
    requires Assumed(f)
    ensures Written(f, c, S8N1) & f.csize == f.cs8
  {
  }

  lemma Written8N1KeepsParodd(f: Flags, c: bv32)
    requires Assumed(f)
    ensures Written(f, c, S8N1) & f.parodd == c & f.parodd
  {
  }

  lemma Written8N1KeepsOutside(f: Flags, c: bv32)
    requires Assumed(f)
    ensures OutsideUnchanged(f, c, Written(f, c, S8N1))
  {
  }

  /* `case S_7E1`. */

  lemma Written7E1SetsParenb(f: Flags, c: bv32)
    requires Assumed(f)
    ensures Written(f, c, S7E1) & f.parenb == f.parenb
  {
  }

  lemma Written7E1ClearsParodd(f: Flags, c: bv32)
    requires Assumed(f)
    ensures Written(f, c, S7E1) & f.parodd == 0
  {
  }

  lemma Written7E1ClearsCstopb(f: Flags, c: bv32)
    requires Assumed(f)
    ensures Written(f, c, S7E1) & f.cstopb == 0
  {
  }

  lemma Written7E1SizeCs7(f: Flags, c: bv32)
    requires Assumed(f)
    ensures Written(f, c, S7E1) & f.csize == f.cs7
  {
  }

  lemma Written7E1KeepsOutside(f: Flags, c: bv32)
    requires Assumed(f)
    ensures OutsideUnchanged(f, c, Written(f, c, S7E1))
  {
  }

  /* `case S_7O1`. */

  lemma Written7O1SetsParenb(f: Flags, c: bv32)
    requires Assumed(f)
    ensures Written(f, c, S7O1) & f.parenb == f.parenb
  {
  }

  lemma Written7O1SetsParodd(f: Flags, c: bv32)
    requires Assumed(f)
    ensures Written(f, c, S7O1) & f.parodd == f.parodd
  {
  }

  lemma Written7O1ClearsCstopb(f: Flags, c: bv32)
    requires Assumed(f)
    ensures Written(f, c, S7O1) & f.cstopb == 0
  {
  }

  lemma Written7O1SizeCs7(f: Flags, c: bv32)
    requires Assumed(f)
    ensures Written(f, c, S7O1) & f.csize == f.cs7
  {
  }

  lemma Written7O1KeepsOutside(f: Flags, c: bv32)
    requires Assumed(f)
    ensures OutsideUnchanged(f, c, Written(f, c, S7O1))
  {
  }

  /* Any other `serconf`: no case matches. */

  lemma WrittenOtherKeepsFraming(f: Flags, c: bv32, serconf: SerConf)
    requires Assumed(f)
    requires serconf != S8N1 && serconf != S7E1 && serconf != S7O1
    ensures Written(f, c, serconf) & FramingBits(f) == c & FramingBits(f)
  {
  }

  lemma WrittenOtherKeepsOutside(f: Flags, c: bv32, serconf: SerConf)
    requires Assumed(f)
    requires serconf != S8N1 && serconf != S7E1 && serconf != S7O1
    ensures OutsideUnchanged(f, c, Written(f, c, serconf))
  {
  }

  lemma Framed8N1(f: Flags, c: bv32)
    requires Assumed(f)
    ensures Framed(f, c, Written(f, c, S8N1), S8N1)
  {
    Written8N1ClearsParenb(f, c);
    Written8N1ClearsCstopb(f, c);
    Written8N1SizeCs8(f, c);
    Written8N1KeepsParodd(f, c);
  }

  lemma Framed7E1(f: Flags, c: bv32)
    requires Assumed(f)
    ensures Framed(f, c, Written(f, c, S7E1), S7E1)
  {
    Written7E1SetsParenb(f, c);
    Written7E1ClearsParodd(f, c);
    Written7E1ClearsCstopb(f, c);
    Written7E1SizeCs7(f, c);
  }

  lemma Framed7O1(f: Flags, c: bv32)
    requires Assumed(f)
    ensures Framed(f, c, Written(f, c, S7O1), S7O1)
  {
    Written7O1SetsParenb(f, c);
    Written7O1SetsParodd(f, c);
    Written7O1ClearsCstopb(f, c);
    Written7O1SizeCs7(f, c);
  }

  lemma FramedOther(f: Flags, c: bv32, serconf: SerConf)
    requires Assumed(f)
    requires serconf != S8N1 && serconf != S7E1 && serconf != S7O1
    ensures Framed(f, c, Written(f, c, serconf), serconf)
  {
    WrittenOtherKeepsFraming(f, c, serconf);
  }

  /** After the step, the four framing fields hold what `serconf` selects;
      a value outside the three constants leaves them as they were. */
  lemma ConfigureFraming(f: Flags, enc: SpeedEncoding, t: Termios, baudRate: int, serconf: SerConf)
    requires Assumed(f)
    ensures Framed(f, t.cflag, Configure(f, enc, t, baudRate, serconf).cflag, serconf)
  {
    ConfigureWritten(f, enc, t, baudRate, serconf);
    if serconf == S8N1 {
      Framed8N1(f, t.cflag);
    } else if serconf == S7E1 {
      Framed7E1(f, t.cflag);
    } else if serconf == S7O1 {
      Framed7O1(f, t.cflag);
    } else {
      FramedOther(f, t.cflag, serconf);
    }
  }

  lemma LineForcedAfter(f: Flags, x: bv32)
    requires Assumed(f)
    ensures LineForced(f, LineWritten(f, x))
  {
    LineSetsClocal(f, x);
    LineSetsCread(f, x);
    LineClearsCrtscts(f, x);
  }

  lemma WrittenLineForced(f: Flags, c: bv32, serconf: SerConf)
    requires Assumed(f)
    ensures LineForced(f, Written(f, c, serconf))
  {
    LineForcedAfter(f, FramingWritten(f, c, serconf));
  }

  lemma WrittenKeepsOutside(f: Flags, c: bv32, serconf: SerConf)
    requires Assumed(f)
    ensures OutsideUnchanged(f, c, Written(f, c, serconf))
  {
    if serconf == S8N1 {
      Written8N1KeepsOutside(f, c);
    } else if serconf == S7E1 {
      Written7E1KeepsOutside(f, c);
    } else if serconf == S7O1 {
      Written7O1KeepsOutside(f, c);
    } else {
      WrittenOtherKeepsOutside(f, c, serconf);
    }
  }

  /** Whatever `serconf` is, the step leaves local mode and the receiver on
      and hardware flow control off. */
  lemma ConfigureLine(f: Flags, enc: SpeedEncoding, t: Termios, baudRate: int, serconf: SerConf)
    requires Assumed(f)
    ensures LineForced(f, Configure(f, enc, t, baudRate, serconf).cflag)
  {
    ConfigureWritten(f, enc, t, baudRate, serconf);
    WrittenLineForced(f, t.cflag, serconf);
  }

  /** Every `c_cflag` bit outside PARENB, PARODD, CSTOPB, CSIZE, CLOCAL,
      CREAD and CRTSCTS comes out as it went in. The speed setters are
      modelled as writing only the two speed fields; a platform that keeps
      the speed inside `c_cflag` (Linux: CBAUD and CBAUDEX) also changes
      those bits, and this lemma says nothing about them. */
  lemma ConfigureOnlyTouches(f: Flags, enc: SpeedEncoding, t: Termios, baudRate: int, serconf: SerConf)
    requires Assumed(f)
    ensures OutsideUnchanged(f, t.cflag, Configure(f, enc, t, baudRate, serconf).cflag)
  {
    ConfigureWritten(f, enc, t, baudRate, serconf);
    WrittenKeepsOutside(f, t.cflag, serconf);
  }

  /** Configuring an already configured structure the same way changes
      nothing. This holds for any mask values, not only under `Assumed`. */
  lemma ConfigureIdempotent(f: Flags, enc: SpeedEncoding, t: Termios, baudRate: int, serconf: SerConf)
    ensures var once := Configure(f, enc, t, baudRate, serconf);
      Configure(f, enc, once, baudRate, serconf) == once
  {
    ApplyEditsIdempotent(t.cflag, FramingEdits(f, serconf) + LineEdits(f));
  }
}

=== FILE: open_port.dfy ===
/** `OpenPort` of the rs232 package as a function of what the operating
    system answers to each call it makes. The calls themselves (`os.OpenFile`,
    `tcgetattr`, `cfsetispeed`, `cfsetospeed`, `tcsetattr`,
    `syscall.SetNonblock`) are not modelled; only their success and the
    structure `tcgetattr` fills in are inputs. */
module Rs232 {
  import opened Baud
  import opened LineConfig

  /** The answers, in the order `OpenPort` asks. */
  datatype OsAnswers = OsAnswers(
    openOk: bool,
    getattrOk: bool,
    current: Termios,
    ispeedOk: bool,
    ospeedOk: bool,
    setattrOk: bool,
    blockingOk: bool)

  /** The `panic` calls of `OpenPort`. Each aborts the process with the
      device still open: nothing closes it. */
  datatype Panic =
    | TcGetAttrFailed
    | CfSetISpeedFailed
    | CfSetOSpeedFailed
    | TcSetAttrFailed
    | DisablingNonblockFailed

  /** An open device: the attributes last committed with `tcsetattr`, and
      whether reads and writes block. */
  datatype SerialPort = SerialPort(committed: Termios, blocking: bool)

  /** `OpenPort` either returns a port, returns the error of `os.OpenFile`,
      or panics. */
  datatype OpenResult =
    | Opened(port: SerialPort)
    | OpenFileError
    | Aborted(panic: Panic)

  /** The sequence of `OpenPort`. The speed and flag edits happen on the
      in-memory copy and reach the device only through `tcsetattr`. The
      device is opened with O_NDELAY, but the last step makes the descriptor
      blocking, although the doc comment of `OpenPort` calls the port
      non-blocking. */
  function OpenPort(f: Flags, enc: SpeedEncoding, os: OsAnswers, baudRate: int, serconf: SerConf): (r: OpenResult)
    ensures r.OpenFileError? <==> !os.openOk
    ensures r.Aborted? ==> os.openOk
    ensures r == Aborted(TcGetAttrFailed) <==> os.openOk && !os.getattrOk
    ensures r == Aborted(CfSetISpeedFailed) <==> os.openOk && os.getattrOk && !os.ispeedOk
    ensures r == Aborted(CfSetOSpeedFailed)
        <==> os.openOk && os.getattrOk && os.ispeedOk && !os.ospeedOk
    ensures r == Aborted(TcSetAttrFailed)
        <==> os.openOk && os.getattrOk && os.ispeedOk && os.ospeedOk && !os.setattrOk
    ensures r.Opened?
        <==> os.openOk && os.getattrOk && os.ispeedOk && os.ospeedOk && os.setattrOk && os.blockingOk
    ensures r.Opened? ==> r.port.blocking
    ensures r.Opened? ==> r.port.committed.ispeed == r.port.committed.ospeed == BaudConversion(enc, baudRate)
  {
    if !os.openOk then OpenFileError
    else
      if !os.getattrOk then Aborted(TcGetAttrFailed)
      else if !os.ispeedOk then Aborted(CfSetISpeedFailed)
      else if !os.ospeedOk then Aborted(CfSetOSpeedFailed)
      else
        var options := Configure(f, enc, os.current, baudRate, serconf);
        if !os.setattrOk then Aborted(TcSetAttrFailed)
        else if !os.blockingOk then Aborted(DisablingNonblockFailed)
        else Opened(SerialPort(options, true))
  }

  /** A port that `OpenPort` returns carries the framing `serconf` selects,
      local mode and receiver on, hardware flow control off, every other
      control bit as `tcgetattr` reported it, and both speeds from the one
      converted rate. "Every other" excludes the speed bits of a platform
      that keeps the speed inside `c_cflag` (Linux: CBAUD and CBAUDEX): the
      speed setters are modelled as writing only the two speed fields. */
  lemma OpenedPortConfigured(f: Flags, enc: SpeedEncoding, os: OsAnswers, baudRate: int, serconf: SerConf)
    requires Assumed(f)
    requires OpenPort(f, enc, os, baudRate, serconf).Opened?
    ensures var p := OpenPort(f, enc, os, baudRate, serconf).port;
      && p.blocking
      && p.committed.ispeed == p.committed.ospeed == BaudConversion(enc, baudRate)
      && Framed(f, os.current.cflag, p.committed.cflag, serconf)
      && LineForced(f, p.committed.cflag)
      && OutsideUnchanged(f, os.current.cflag, p.committed.cflag)
  {
    var options := Configure(f, enc, os.current, baudRate, serconf);
    assert OpenPort(f, enc, os, baudRate, serconf).port.committed == options;
    ConfigureFraming(f, enc, os.current, baudRate, serconf);
    ConfigureLine(f, enc, os.current, baudRate, serconf);
    ConfigureOnlyTouches(f, enc, os.current, baudRate, serconf);
  }

  /** `OpenPort` succeeds for a rate outside the table, and commits the zero
      speed value for both directions: the same value as rate 0 (hang-up)
      wherever the constant B0 is 0, as on Linux. */
  lemma OpenedWithUnsupportedRate(f: Flags, enc: SpeedEncoding, os: OsAnswers, baudRate: int, serconf: SerConf)
    requires baudRate !in SupportedRates
    requires OpenPort(f, enc, os, baudRate, serconf).Opened?
    ensures var p := OpenPort(f, enc, os, baudRate, serconf).port;
      p.committed.ispeed == p.committed.ospeed == ZeroSpeed
    ensures enc(B0) == ZeroSpeed ==>
      var p := OpenPort(f, enc, os, baudRate, serconf).port;
      p.committed.ispeed == p.committed.ospeed == enc(B0)
  {
  }
}

=== FILE: serialcat.dfy ===
/** The mode flag of the serialcat utility: its default values and the
    translation of a mode name into a `SerConf`. */
module SerialCat {
  import opened Wrappers
  import opened LineConfig
  import Baud

  /** The mode names, listed in the order the usage text gives them and the
      `SerConf` constants are numbered. */
  const ModeNames: seq<string> := ["8N1", "7E1", "7O1"]

  /** The default of the `-baud` flag. */
  const DefaultBaud: int := 57600

  /** The default of the `-mode` flag. */
  const DefaultMode: string := "8N1"

  /** `parseMode`: `None` stands for the `log.Fatalf` branch, which ends the
      process without producing a `SerConf`. */
  function ParseMode(s: string): (r: Option<SerConf>)
    ensures r.Some? ==> 0 <= r.value < |ModeNames| && ModeNames[r.value] == s
    ensures r.None? ==> s !in ModeNames
  {
    match s
    case "8N1" => Some(S8N1)
    case "7E1" => Some(S7E1)
    case "7O1" => Some(S7O1)
    case _ => None
  }

  /** Every listed name is accepted, and gives the constant at its position. */
  lemma ParseModeAcceptsNames(c: SerConf)
    requires 0 <= c < |ModeNames|
    ensures ParseMode(ModeNames[c]) == Some(c)
  {
  }

  /** The three names give the three constants. */
  lemma ParseModeNamed()
    ensures ParseMode("8N1") == Some(S8N1)
    ensures ParseMode("7E1") == Some(S7E1)
    ensures ParseMode("7O1") == Some(S7O1)
  {
    ParseModeAcceptsNames(S8N1);
    ParseModeAcceptsNames(S7E1);
    ParseModeAcceptsNames(S7O1);
  }

  /** Matching is exact: the empty string and lower-case spellings are
      rejected. */
  lemma ParseModeRejects()
    ensures ParseMode("") == None
    ensures ParseMode("8n1") == None && ParseMode("7e1") == None && ParseMode("7o1") == None
  {
  }

  /** Distinct accepted names give distinct constants. */
  lemma ParseModeInjective(s1: string, s2: string)
    requires ParseMode(s1).Some? && ParseMode(s1) == ParseMode(s2)
    ensures s1 == s2
  {
  }

  /** The defaults of serialcat are accepted: the default mode parses, and
      the default rate is a key of the baud table. */
  lemma DefaultsConsistent()
    ensures ParseMode(DefaultMode) == Some(S8N1)
    ensures DefaultBaud in Baud.Table
    ensures DefaultBaud in Baud.SupportedRates
  {
  }
}

=== FILE: wrappers.dfy ===
/** Optional values; `None` means no value was produced. */
module Wrappers {

  /** `None` stands for "no value was produced". */
  datatype Option<+T> = None | Some(value: T)
}
